=== FILE: README.md ===
# Tic-tac-toe room server, modelled in Dafny

This project models the authoritative core of a two-player tic-tac-toe
WebSocket server (`scripts/websocket-server.js`). It covers two parts:

- the `GameRoom` class: a 9-cell board, the mark whose turn it is, the round
  winner, the `gameOver` flag, a roster of players with loss counts, and the
  operations `addPlayer`, `makeMove`, `checkWinner`, `reset` and
  `getGameState`;
- the server's `rooms` registry with the per-connection handlers
  `join_room`, `make_move`, `reset_game`, `reset_match` and `close`.

Everything is an immutable value with pure transition functions. A room is a
`GameRoom.Room`. The registry is a `map<RoomId, Room>` plus the set of player
ids that have a socket entry. A connection's two local variables (`playerId`,
`currentRoomId`) are a `Server.Session` record. Each handler returns the new
registry, the new session and the list of messages it would send:
`Reply(kind)` goes to the requesting socket only, and `Broadcast(kind,
recipients)` goes to the roster entries that still have a socket entry.

Modules and files:

- `wrappers.dfy` (`Wrappers`): `Option`, standing in for `null`.
- `seqs.dfy` (`Seqs`): `FirstWhere` and `Filter`, the behaviour of
  `Array.prototype.find` and `filter` that the server relies on.
- `board.dfy` (`Board`): marks, the grid, the win-pattern scan, and an
  independent geometric reference (`HasLine`: rows, columns, diagonals).
- `game_room.dfy` (`GameRoom`): the `GameRoom` class.
- `room_invariant.dfy` (`RoomInvariant`): the round invariant that every room
  reachable from the constructor satisfies, with its preservation proofs.
- `server.dfy` (`Server`): the registry, the sessions, the handlers, dispatch,
  and the registry invariant.
- `scenarios.dfy` (`Scenarios`): concrete runs, plus consequences of the
  order in which the handlers do things.

Behaviour the model follows exactly as the code is written:

- `addPlayer` hands out X only when the roster is empty. If X leaves and
  someone joins, both players hold O (`Scenarios.MarksCanCoincide`). So marks
  are not asserted to be distinct.
- `join_room` sets the session's `playerId` and `currentRoomId` before it
  checks capacity. A refused joiner is therefore bound to the full room. It
  cannot move there, because its id is not in the roster, but it can reset
  the round or the match (`Scenarios.RefusedJoinerCanResetMatch`). A second
  `join_room` on the same connection leaves the first roster entry behind for
  good (`Scenarios.RejoinStrandsEarlierEntry`).
- `make_move` uses the session's own `playerId`, not an id from the message.
  `reset_game` and `reset_match` check only the room id.
- JavaScript truthiness is modelled: an empty-string id counts as absent.
  `make_move` needs both a truthy room id and a truthy player id. The resets
  need only a truthy room id. `close` needs a truthy player id to drop the
  socket entry, and also a truthy room id to touch a room.
- `reset_game` keeps every loss count, so a round reset leaves an over match
  over (`Server.ResetGameStep`). `reset_match` clears it. A close can clear
  it too: when the beaten player leaves, the winner is alone in the room, and
  a one-entry roster has no match winner (`Scenarios.LeavingClearsMatchOver`).
- The match winner is the first roster entry whose opponent has reached 3
  losses. The opponent is the first entry with a different id. If both
  players have 3 or more losses (possible after `reset_game`), the first
  entry is named winner.
- A winning move charges the first entry whose mark differs from the
  winner's. `match_over` is reported whenever that count reaches 3 or more,
  including a count beyond 3 after further rounds. The winner it names is
  the first entry holding the winning mark.

## Model

| member | source | states |
|---|---|---|
| Seqs.FirstWhere | scripts/websocket-server.js:33 | `find`: the index returned satisfies the predicate and no earlier element does; None exactly when no element does |
| Seqs.Filter | scripts/websocket-server.js:271 | `filter`: the result is a subsequence of the input (kept elements stay in their original order) holding exactly the elements satisfying the predicate, with their multiplicities; keeps everything when all satisfy it; empty exactly when none does |
| Seqs.FilterConsOrder | scripts/websocket-server.js:271 | one step of `filter` over a non-empty array keeps the original order |
| Seqs.FilterConsContents | scripts/websocket-server.js:271 | one step of `filter` over a non-empty array keeps exactly the satisfying elements with their multiplicities |
| Board.Other | scripts/websocket-server.js:66 | switching turns always yields the other mark |
| Board.EmptyGrid | scripts/websocket-server.js:13 | a new board has nine empty cells |
| Board.PatternsAreLines | scripts/websocket-server.js:73-82 | the eight-entry pattern table is exactly the three rows, three columns and two diagonals of the 3x3 board |
| Board.NoPatternNoLine | scripts/websocket-server.js:84-95 | no pattern is completed by any mark exactly when neither mark fills a row, column or diagonal |
| Board.ScanFrom | scripts/websocket-server.js:84-95 | the scan returns a mark only if a pattern it reaches is filled with that mark and no earlier one is filled; it returns None exactly when no remaining pattern is filled |
| Board.CheckWinner | scripts/websocket-server.js:72-96 | returns m only if m fills a line; returns null exactly when no line is filled by either mark; returns m whenever m, and only m, fills a line; the returned mark is that of the first filled pattern in table order |
| Board.CountPlace | scripts/websocket-server.js:43 | writing a mark into an empty cell adds one to that mark's count and leaves the other mark's count unchanged |
| Board.CountEmpty | scripts/websocket-server.js:13 | an all-empty board holds no marks |
| Board.PlaceCompletesOnlyMover | scripts/websocket-server.js:43-47 | writing the mover's mark cannot give the other mark a line it did not have |
| GameRoom.NewRoom | scripts/websocket-server.js:10-17 | a new room has the given id, no players, an empty board, X to move, no winner, and the round not over |
| GameRoom.AddPlayer | scripts/websocket-server.js:19-30 | appends exactly one entry with the given id, name and owner flag and zero losses; it holds X exactly when the roster was empty; earlier entries and all game fields are unchanged |
| GameRoom.ChargeLoss | scripts/websocket-server.js:51-55 | only the first entry whose mark differs from the winner's gets exactly one more loss; every other field and entry is unchanged; no one is charged exactly when every entry holds the winning mark |
| GameRoom.Settle | scripts/websocket-server.js:45-69 | after the mark is written: with no line and a free cell, the turn flips and nothing else changes; with no line and a full board, the round ends with no new winner and the turn and losses unchanged; with a line, the round ends, the winner fills a line, the turn is kept, the first entry not holding the winning mark, if any, gets one more loss, the move is never rejected, `match_over` is returned exactly when the charged count reaches 3, and the winner it names is the first entry holding the winning mark |
| GameRoom.MakeMove | scripts/websocket-server.js:32-70 | rejected, with the room unchanged, exactly when the id is unknown, the first entry with that id holds the wrong mark, the cell is occupied, or the round is over; otherwise the current mark is written at the position, every other cell is kept, and the outcome is as `Settle` states |
| GameRoom.Reset | scripts/websocket-server.js:98-103 | empty board, X to move, no winner, round not over; roster and loss counts untouched |
| GameRoom.ResetMatch | scripts/websocket-server.js:244-248 | the effect of `reset` plus every entry's losses set to 0 with the other fields kept; afterwards the match is not over |
| GameRoom.MatchWinner | scripts/websocket-server.js:106-109 | some entry is named exactly when some entry's opponent (the first entry with another id) has 3 or more losses; the named entry is the first such |
| GameRoom.MatchWinnerOfPair | scripts/websocket-server.js:106-109 | with two entries of distinct ids, the match is over exactly when either has 3 or more losses, and the winner is the other entry (the first entry if both qualify); fewer than two entries never end a match |
| GameRoom.BeatenAgrees | scripts/websocket-server.js:106-109 | the nested `find` callbacks hold for an entry exactly when that entry's opponent has reached the loss limit |
| GameRoom.GetGameState | scripts/websocket-server.js:105-121 | the snapshot copies every room field; `matchOver` holds exactly when a match winner is named, which is exactly when some entry's opponent has reached 3 losses; two-entry and fewer-than-two-entry cases as in `MatchWinnerOfPair` |
| RoomInvariant.FreshRoundSatisfies | scripts/websocket-server.js:13-16 | an empty board with X to move, no winner and the round not over satisfies the round invariant |
| RoomInvariant.ResetsEstablish | scripts/websocket-server.js:98-103 | the constructor, `reset` and the match reset all produce rooms satisfying the round invariant (mark counts alternate; an unfinished round has no line and a free cell; a won round was won by the last mover alone; a draw has a full board and no line) |
| RoomInvariant.AddPlayerPreserves | scripts/websocket-server.js:19-30 | joining never breaks the round invariant |
| RoomInvariant.MakeMovePreserves | scripts/websocket-server.js:32-70 | every move keeps the round invariant; an accepted move has exactly one of three outcomes: the round continues with the turn passed, the mover wins, or a draw on a full board |
| Server.BroadcastTo | scripts/websocket-server.js:128-138 | sends nothing when the room is absent, else one message whose recipients are exactly the roster ids that have a socket entry, each addressed once per roster entry carrying it |
| Server.JoinRoom | scripts/websocket-server.js:151-193 | the session is rebound to the new id and room, whatever the outcome; the room is created only if absent; no other room changes; a room with two or more entries is left as is and only an error reply is sent; otherwise exactly one entry is appended (X if the roster was empty, else O, 0 losses), the id gets a socket entry, and `player_joined` is replied before `game_state_update` is broadcast to exactly the roster entries that have a socket entry, each addressed once per roster entry carrying it, the joiner among them |
| Server.Admit | scripts/websocket-server.js:173-190 | an admitted join stores the room with the new entry, registers the socket, and sends `player_joined` and then a `game_state_update` whose recipients are exactly the roster entries with a socket entry, each addressed once per roster entry carrying it, the new player included |
| Server.MoveStep | scripts/websocket-server.js:195-223 | does nothing without a truthy room id and player id or when the room is gone; otherwise it stores the room `makeMove` returns, sends nothing exactly when the move is rejected, addresses every message it sends to exactly the room's roster ids that have a socket entry, each addressed once per roster entry carrying it, and leaves other rooms untouched |
| Server.MoveMessages | scripts/websocket-server.js:202-221 | nothing for a rejected move; only `match_over` when the match ended; otherwise `move_made`, followed by `game_over` exactly when the round is over; every message goes to exactly the room's roster ids that have a socket entry, each addressed once per roster entry carrying it |
| Server.ResetGameStep | scripts/websocket-server.js:225-236 | with a truthy room id whose room exists, a fresh round in the same room (same `roomId`) with the roster kept and `game_reset` sent to exactly the roster ids that have a socket entry, each addressed once per roster entry carrying it, so whether the match is over is unchanged; otherwise nothing |
| Server.ResetMatchStep | scripts/websocket-server.js:238-254 | like `reset_game` (same `roomId`, fresh round), but every loss count is set to 0 and the match is no longer over; `match_reset` is sent to exactly the roster ids that have a socket entry, each addressed once per roster entry carrying it |
| Server.Close | scripts/websocket-server.js:261-286 | with a truthy player id, drops its socket entry; with a truthy room id whose room exists, removes exactly the roster entries with that id (the others kept in their order and with their multiplicity, game fields unchanged); deletes the room exactly when the roster becomes empty, else sends `game_state_update` to exactly the remaining roster ids that still have a socket entry, each addressed once per roster entry carrying it, which never includes the closing connection; other rooms are untouched |
| Server.Leave | scripts/websocket-server.js:267-283 | the room part of `close`: the same removal and deletion, and `game_state_update` sent to exactly the remaining roster ids that have a socket entry, each addressed once per roster entry carrying it; sockets and other rooms are untouched |
| Server.Dispatch | scripts/websocket-server.js:146-259 | routes `join_room`, `make_move`, `reset_game` and `reset_match` to exactly the result of their handler; unknown types change nothing; only `join_room` rebinds the session; rooms other than the session's (new) room are untouched |
| Server.StoreValid | scripts/websocket-server.js:6 | storing a valid room under its own key keeps the registry valid |
| Server.JoinPreservesValid | scripts/websocket-server.js:156-175 | after a join, every registered room is keyed by its id, has one or two entries, and satisfies the round invariant |
| Server.MovePreservesValid | scripts/websocket-server.js:195-223 | a move keeps the registry valid |
| Server.ResetsPreserveValid | scripts/websocket-server.js:225-254 | both resets keep the registry valid |
| Server.DispatchPreservesValid | scripts/websocket-server.js:146-259 | every handled message keeps the registry valid, so no room ever holds more than two entries |
| Server.ClosePreservesValid | scripts/websocket-server.js:261-286 | closing a connection keeps the registry valid; in particular no empty room remains registered |
| Server.LeavePreservesValid | scripts/websocket-server.js:267-283 | removing a connection's entries from its room keeps the registry valid: a kept room has its round unchanged and one or two entries |
| Scenarios.OrdinaryMoveStep | scripts/websocket-server.js:64-67 | an accepted move that fills neither a line nor the board writes the mark and passes the turn, with nothing else changed |
| Scenarios.WinningMoveStep | scripts/websocket-server.js:46-55 | an accepted move that fills a line for the mover ends the round with the mover as winner, keeps the turn, and charges the first opposing entry exactly one loss |
| Scenarios.TwoPlayerRoomStart | scripts/websocket-server.js:19-30 | the first joiner holds X, the second holds O, and both start with no losses |
| Scenarios.OpeningFirstPair | scripts/websocket-server.js:32-70 | X at 0 and then O at 3 are accepted ordinary moves |
| Scenarios.OpeningSecondPair | scripts/websocket-server.js:32-70 | X at 1 and then O at 4 are accepted ordinary moves |
| Scenarios.WinningMoveCharges | scripts/websocket-server.js:45-55 | an accepted move that fills a line for the mover alone ends the round with the mover as winner, the turn kept, and the first opposing entry charged |
| Scenarios.OpeningFinishIsWinning | scripts/websocket-server.js:32-47 | after X 0, O 3, X 1, O 4, A may play 2, which fills the top row for X alone; B is the first entry not holding X |
| Scenarios.OpeningFinish | scripts/websocket-server.js:45-60 | X at 2 completes the top row: X wins and B is charged one loss |
| Scenarios.TopRowWins | scripts/websocket-server.js:32-70 | the game 0, 3, 1, 4, 2 from a fresh round ends in a win for X that charges only B |
| Scenarios.TopRowForXOutcome | scripts/websocket-server.js:32-70 | the same game, stated as the resulting room |
| Scenarios.FirstRoundScenario | scripts/websocket-server.js:19-121 | in room "ABCD", A (X) playing 0, 1, 2 against B's 3, 4 wins for X; B has one loss, A none; the match is not over |
| Scenarios.FirstRoundOf | scripts/websocket-server.js:32-121 | for any fresh round between A (X) and B (O) without losses, the top-row game leaves B with one loss, A with none, the match not over, and a later `reset()` keeps B's loss |
| Scenarios.ResetAfterFirstRound | scripts/websocket-server.js:98-103 | the round reset after that game starts a fresh round and keeps B's loss |
| Scenarios.Rounds | scripts/websocket-server.js:32-103 | each reset-and-play round charges B exactly one more loss and leaves A's entry unchanged |
| Scenarios.MatchScenario | scripts/websocket-server.js:105-120 | after three such rounds, B has three losses, the match is over, and A is named the match winner |
| Scenarios.RoundsEndMatch | scripts/websocket-server.js:105-120 | whenever B's losses reach 3 through top-row rounds, the match is over and A's entry is the match winner |
| Scenarios.TwoJoins | scripts/websocket-server.js:156-175 | two fresh connections joining "R" make one room whose roster is A with X, then B with O |
| Scenarios.JoinedRoster | scripts/websocket-server.js:173-174 | an admitted join appends exactly one entry, with the mark chosen by roster emptiness |
| Scenarios.FirstLeaves | scripts/websocket-server.js:264-283 | when X's connection closes, only the O entry remains and the room stays registered |
| Scenarios.LeavingClearsMatchOver | scripts/websocket-server.js:106-119 | with A (0 losses) and B (3 losses) the match is over; when B's connection closes only A is left and the match is no longer over |
| Scenarios.CloseLeavesPartner | scripts/websocket-server.js:264-283 | in a room of two entries with different ids, closing one entry's connection leaves the room registered with exactly the other entry |
| Scenarios.PartnerLeft | scripts/websocket-server.js:271 | removing one id from a two-entry roster in which only one entry carries it leaves exactly the other entry |
| Scenarios.OnlyOneLeft | scripts/websocket-server.js:271 | a filtered roster holding one entry once, and nothing else, is exactly that entry |
| Scenarios.MarksCanCoincide | scripts/websocket-server.js:20 | X leaving and a new player joining yields a room in which both entries hold O |
| Scenarios.RefusedJoinerCanResetMatch | scripts/websocket-server.js:152-171 | a join refused because the room is full still binds the session to that room, and that session's `reset_match` resets the room |
| Scenarios.RejoinStrandsEarlierEntry | scripts/websocket-server.js:152-153 | after a second `join_room` on another room, closing the connection leaves the first room exactly as it was |

## Left out

- The `ws` server, sockets, `send`, `readyState` checks, JSON parsing and the
  `try`/`catch` around dispatch are transport. Messages are modelled only as
  their kinds and recipient ids. A closed socket that still has an entry is
  listed as a recipient, because `readyState` is not modelled.
- `generatePlayerId` is random, so the new id is a parameter (`freshId`). Ids
  are not assumed distinct. All contracts use the first-match semantics of
  `Array.prototype.find`.
- `console.log` and `console.error` calls are logging only.
- Concurrency is left out. The Node event loop runs the handlers one at a
  time, and the model is a sequence of pure transitions.
- Positions outside 0..8, or non-integer positions, are excluded by the
  `Position` subset type. In JavaScript `makeMove` accepts such a move and
  the turn passes: an integer of 9 or more writes past the board's end, while
  a negative or non-integer position sets a property that is not an array
  index and leaves the board's cells unchanged. A `null` or `undefined` room id, username or owner flag is not
  modelled; these are strings and a boolean.
- The snapshot's `matchWinner` inside a `match_over` broadcast is not carried
  in `Outbound`. It is the `matchWinner` of `GameRoom.MakeMove`'s result and
  of `GameRoom.GetGameState`.
- app/page.tsx, app/layout.tsx, app/game/[roomId]/page.tsx and
  app/api/websocket/route.ts are UI and a stub, and are not part of this model.

=== FILE: board.dfy ===
/** The 3x3 board of one room: marks, cells, the eight winning triples and
    the scan that finds a completed one (`GameRoom.checkWinner` in
    scripts/websocket-server.js). */
module Board {
  import opened Wrappers

  /** The two symbols a player can hold: "X" and "O". */
  datatype Mark = X | O

  /** The mark that moves after `m` (the ternary that switches turns). */
  function Other(m: Mark): (r: Mark)
    ensures r != m
  {
    if m == X then O else X
  }

  /** A cell is `null` (None) or holds a mark. */
  type Cell = Option<Mark>

  /** The board: exactly nine cells, row-major. */
  type Grid = g: seq<Cell> | |g| == 9 witness seq(9, i => None)

  /** A cell index. `makeMove` does not bounds-check positions; the model
      admits only 0..8. */
  type Position = p: int | 0 <= p < 9

  /** `Array(9).fill(null)`. */
  function EmptyGrid(): (g: Grid)
    ensures forall i :: 0 <= i < 9 ==> g[i].None?
  {
    seq(9, i => None)
  }

  /** `board.every((cell) => cell !== null)`. */
  predicate Full(g: Grid) {
    forall i :: 0 <= i < 9 ==> g[i].Some?
  }

  /* ---------------- the pattern table `checkWinner` scans ---------------- */

  datatype Line = Line(a: Position, b: Position, c: Position)

  /** The winning triples, in the order `checkWinner` tries them:
      three rows, three columns, two diagonals. */
  const WinPatterns: seq<Line> := [
    Line(0, 1, 2), Line(3, 4, 5), Line(6, 7, 8),
    Line(0, 3, 6), Line(1, 4, 7), Line(2, 5, 8),
    Line(0, 4, 8), Line(2, 4, 6)
  ]

  /** All three cells of `l` hold `m`. */
  predicate Completes(g: Grid, l: Line, m: Mark) {
    g[l.a] == Some(m) && g[l.b] == Some(m) && g[l.c] == Some(m)
  }

  /** No pattern with index in [k, j) is completed by either mark. */
  predicate NoneCompleteBetween(g: Grid, k: nat, j: nat)
    requires j <= |WinPatterns|
  {
    forall i, m :: k <= i < j ==> !Completes(g, WinPatterns[i], m)
  }

  /* ---------------- an independent, geometric reference ---------------- */

  predicate RowOf(g: Grid, r: int, m: Mark)
    requires 0 <= r < 3
  {
    g[3 * r] == Some(m) && g[3 * r + 1] == Some(m) && g[3 * r + 2] == Some(m)
  }

  predicate ColumnOf(g: Grid, c: int, m: Mark)
    requires 0 <= c < 3
  {
    g[c] == Some(m) && g[c + 3] == Some(m) && g[c + 6] == Some(m)
  }

  predicate DiagonalOf(g: Grid, m: Mark) {
    g[0] == Some(m) && g[4] == Some(m) && g[8] == Some(m)
  }

  predicate AntiDiagonalOf(g: Grid, m: Mark) {
    g[2] == Some(m) && g[4] == Some(m) && g[6] == Some(m)
  }

  /** `m` fills some row, column or diagonal of the 3x3 board. */
  predicate HasLine(g: Grid, m: Mark) {
    || RowOf(g, 0, m) || RowOf(g, 1, m) || RowOf(g, 2, m)
    || ColumnOf(g, 0, m) || ColumnOf(g, 1, m) || ColumnOf(g, 2, m)
    || DiagonalOf(g, m) || AntiDiagonalOf(g, m)
  }

  /** The pattern table lists exactly the rows, columns and diagonals. */
  lemma PatternsAreLines(g: Grid, m: Mark)
    ensures HasLine(g, m) <==> exists j :: 0 <= j < |WinPatterns| && Completes(g, WinPatterns[j], m)
  {
    if HasLine(g, m) {
      if RowOf(g, 0, m) { assert Completes(g, WinPatterns[0], m); }
      else if RowOf(g, 1, m) { assert Completes(g, WinPatterns[1], m); }
      else if RowOf(g, 2, m) { assert Completes(g, WinPatterns[2], m); }
      else if ColumnOf(g, 0, m) { assert Completes(g, WinPatterns[3], m); }
      else if ColumnOf(g, 1, m) { assert Completes(g, WinPatterns[4], m); }
      else if ColumnOf(g, 2, m) { assert Completes(g, WinPatterns[5], m); }
      else if DiagonalOf(g, m) { assert Completes(g, WinPatterns[6], m); }
      else { assert Completes(g, WinPatterns[7], m); }
    }
    if exists j :: 0 <= j < |WinPatterns| && Completes(g, WinPatterns[j], m) {
      var j :| 0 <= j < |WinPatterns| && Completes(g, WinPatterns[j], m);
      assert j in {0, 1, 2, 3, 4, 5, 6, 7};
    }
  }

  /** No pattern is completed exactly when neither mark fills a line. */
  lemma NoPatternNoLine(g: Grid)
    ensures NoneCompleteBetween(g, 0, |WinPatterns|) <==> !HasLine(g, X) && !HasLine(g, O)
  {
    PatternsAreLines(g, X);
    PatternsAreLines(g, O);
    if !HasLine(g, X) && !HasLine(g, O) {
      forall i, m | 0 <= i < |WinPatterns|
        ensures !Completes(g, WinPatterns[i], m)
      {
        if m == X {} else {}
      }
    }
  }

  /* ---------------- checkWinner ---------------- */

  /** The loop over `winPatterns` from index `k` on: the mark of the first
      pattern whose three cells are equal and non-null, or None. */
  function ScanFrom(g: Grid, k: nat): (r: Option<Mark>)
    requires k <= |WinPatterns|
    ensures r.Some? ==> exists j :: k <= j < |WinPatterns| && Completes(g, WinPatterns[j], r.value)
                                    && NoneCompleteBetween(g, k, j)
    ensures r.None? <==> NoneCompleteBetween(g, k, |WinPatterns|)
    decreases |WinPatterns| - k
  {
    if k == |WinPatterns| then None
    else
      var l := WinPatterns[k];
      if g[l.a].Some? && g[l.a] == g[l.b] && g[l.a] == g[l.c] then g[l.a]
      else ScanFrom(g, k + 1)
  }

  /** `checkWinner()`: returns m only if m fills a row, column or diagonal;
      returns None exactly when no line is filled; when both marks fill a
      line (a board no game reaches) the first pattern in table order wins. */
  function CheckWinner(g: Grid): (r: Option<Mark>)
    ensures r.Some? ==> HasLine(g, r.value)
    ensures r.None? <==> !HasLine(g, X) && !HasLine(g, O)
    ensures forall m :: HasLine(g, m) && !HasLine(g, Other(m)) ==> r == Some(m)
    ensures r.Some? ==> exists j :: 0 <= j < |WinPatterns| && Completes(g, WinPatterns[j], r.value)
                                    && NoneCompleteBetween(g, 0, j)
  {
    PatternsAreLines(g, X);
    PatternsAreLines(g, O);
    NoPatternNoLine(g);
    ScanFrom(g, 0)
  }

  /* ---------------- counting marks ---------------- */

  /** Number of cells holding `m`. */
  function Count(cells: seq<Cell>, m: Mark): (n: nat)
    ensures n <= |cells|
  {
    if |cells| == 0 then 0
    else (if cells[0] == Some(m) then 1 else 0) + Count(cells[1..], m)
  }

  /** Filling an empty cell with `m` adds one to m's count and leaves the
      other mark's count alone. */
  lemma {:induction false} CountPlace(cells: seq<Cell>, i: int, m: Mark, n: Mark)
    requires 0 <= i < |cells| && cells[i].None?
    ensures Count(cells[i := Some(m)], n) == Count(cells, n) + (if n == m then 1 else 0)
  {
    if i == 0 {
      assert cells[i := Some(m)][1..] == cells[1..];
    } else {
      assert cells[i := Some(m)][1..] == cells[1..][i - 1 := Some(m)];
      CountPlace(cells[1..], i - 1, m, n);
    }
  }

  /** A sequence of empty cells holds no mark. */
  lemma {:induction false} CountEmpty(cells: seq<Cell>, m: Mark)
    requires forall i :: 0 <= i < |cells| ==> cells[i].None?
    ensures Count(cells, m) == 0
  {
    if |cells| > 0 {
      CountEmpty(cells[1..], m);
    }
  }

  /** Placing m into an empty cell cannot complete a line for the other mark. */
  lemma PlaceCompletesOnlyMover(g: Grid, p: Position, m: Mark)
    requires g[p].None?
    requires !HasLine(g, Other(m))
    ensures !HasLine(g[p := Some(m)], Other(m))
  {
  }
}

=== FILE: game_room.dfy ===
/** One room's game engine: the `GameRoom` class of
    scripts/websocket-server.js as immutable values and pure transitions. */
module GameRoom {
  import opened Wrappers
  import opened Seqs
  import opened Board

  type PlayerId = string
  type RoomId = string

  /** A player whose loss count reaches this many has lost the match. */
  const LossLimit: nat := 3

  /** A roster entry: `{ id, username, symbol, losses, isOwner }`. */
  datatype Player = Player(id: PlayerId, username: string, symbol: Mark, losses: nat, isOwner: bool)

  /** The fields of a `GameRoom` instance. `winner` and `gameOver` describe the
      current round; `currentPlayer` is the mark whose turn it is. */
  datatype Room = Room(
    roomId: RoomId,
    players: seq<Player>,
    board: Grid,
    currentPlayer: Mark,
    winner: Option<Mark>,
    gameOver: bool)

  /** The outcome of `makeMove`: `false`, `true`, or
      `{ type: "match_over", winner }`. */
  datatype MoveResult = Rejected | Accepted | MatchEnded(matchWinner: Option<Player>)

  /** The object `getGameState()` returns. */
  datatype GameState = GameState(
    board: Grid,
    currentPlayer: Mark,
    winner: Option<Mark>,
    gameOver: bool,
    players: seq<Player>,
    roomId: RoomId,
    matchWinner: Option<Player>,
    matchOver: bool)

  /* ---------------- predicates the contracts are stated with ---------------- */

  /** The round is at its starting point: empty board, X to move, no winner. */
  predicate FreshRound(r: Room) {
    && (forall i :: 0 <= i < 9 ==> r.board[i].None?)
    && r.currentPlayer == X
    && r.winner.None?
    && !r.gameOver
  }

  /** `a` and `b` agree on every field except the roster. */
  predicate SameGame(a: Room, b: Room) {
    && a.roomId == b.roomId
    && a.board == b.board
    && a.currentPlayer == b.currentPlayer
    && a.winner == b.winner
    && a.gameOver == b.gameOver
  }

  /** `i` is the entry `players.find((p) => p.id === id)` returns. */
  predicate IsMover(ps: seq<Player>, i: int, id: PlayerId) {
    && 0 <= i < |ps|
    && ps[i].id == id
    && forall j :: 0 <= j < i ==> ps[j].id != id
  }

  /** `i` is the first entry whose symbol differs from the winning mark `w`. */
  predicate IsFirstLoser(ps: seq<Player>, i: int, w: Mark) {
    && 0 <= i < |ps|
    && ps[i].symbol != w
    && forall j :: 0 <= j < i ==> ps[j].symbol == w
  }

  /** `i` is the first entry holding mark `w`. */
  predicate IsFirstHolder(ps: seq<Player>, i: int, w: Mark) {
    && 0 <= i < |ps|
    && ps[i].symbol == w
    && forall j :: 0 <= j < i ==> ps[j].symbol != w
  }

  /** `i` is the first entry whose id differs from `id`. */
  predicate IsFirstOther(ps: seq<Player>, i: int, id: PlayerId) {
    && 0 <= i < |ps|
    && ps[i].id != id
    && forall j :: 0 <= j < i ==> ps[j].id == id
  }

  /** The four conditions under which `makeMove` rejects a move. */
  ghost predicate MoveRejected(room: Room, id: PlayerId, pos: Position) {
    || (forall i :: 0 <= i < |room.players| ==> room.players[i].id != id)
    || (exists i :: IsMover(room.players, i, id) && room.players[i].symbol != room.currentPlayer)
    || room.board[pos].Some?
    || room.gameOver
  }

  /** `after` is `before` with the first loser against `w` charged one loss:
      same entries in the same order, only that entry's losses differ. */
  predicate LossCharged(before: seq<Player>, after: seq<Player>, w: Mark) {
    && |after| == |before|
    && forall i :: 0 <= i < |before| ==>
         && after[i].id == before[i].id
         && after[i].username == before[i].username
         && after[i].symbol == before[i].symbol
         && after[i].isOwner == before[i].isOwner
         && after[i].losses == before[i].losses + (if IsFirstLoser(before, i, w) then 1 else 0)
  }

  /** The opponent of entry `i` (the first entry with another id) has lost
      the match. */
  ghost predicate Beaten(ps: seq<Player>, i: int)
    requires 0 <= i < |ps|
  {
    exists j :: IsFirstOther(ps, j, ps[i].id) && ps[j].losses >= LossLimit
  }

  /* ---------------- constructor, addPlayer ---------------- */

  /** `new GameRoom(roomId)`. */
  function NewRoom(id: RoomId): (r: Room)
    ensures r.roomId == id && r.players == [] && FreshRound(r)
  {
    Room(id, [], EmptyGrid(), X, None, false)
  }

  /** `addPlayer(playerId, username, isOwner)`: appends one entry with no
      losses, holding X exactly when the roster was empty and O otherwise;
      the game itself is untouched. */
  function AddPlayer(room: Room, id: PlayerId, username: string, isOwner: bool): (r: Room)
    ensures |r.players| == |room.players| + 1
    ensures r.players[..|room.players|] == room.players
    ensures var p := r.players[|room.players|];
              && p.id == id && p.username == username && p.isOwner == isOwner
              && p.losses == 0
              && (p.symbol == X <==> |room.players| == 0)
    ensures SameGame(r, room)
  {
    var symbol := if |room.players| == 0 then X else O;
    room.(players := room.players + [Player(id, username, symbol, 0, isOwner)])
  }

  /* ---------------- makeMove ---------------- */

  /** The loss bookkeeping after a round won by `w`: the first entry whose
      symbol differs from `w` gets one more loss, and its index is returned. */
  function ChargeLoss(ps: seq<Player>, w: Mark): (r: (seq<Player>, Option<nat>))
    ensures LossCharged(ps, r.0, w)
    ensures r.1.Some? ==> IsFirstLoser(ps, r.1.value, w)
    ensures r.1.None? <==> forall i :: 0 <= i < |ps| ==> ps[i].symbol == w
  {
    match FirstWhere(ps, (p: Player) => p.symbol != w)
    case None => (ps, None)
    case Some(k) => (ps[k := ps[k].(losses := ps[k].losses + 1)], Some(k))
  }

  /** What `makeMove` does once a move has been accepted and `g` (the board
      with the mover's mark written) has been computed:
      - ordinary move (no line, board not full): turn passes to the other mark,
        nothing else but the board changes;
      - draw (no line, board full): the round ends with no winner, turn and
        losses unchanged;
      - win: the round ends with the completing mark as winner, turn unchanged,
        the first opposing entry charged one loss; the result reports the end
        of the match exactly when that entry's count reaches the limit, and
        then names the first entry holding the winning mark. */
  ghost predicate Settled(room: Room, g: Grid, res: (MoveResult, Room)) {
    var (result, r) := res;
    && r.roomId == room.roomId
    && r.board == g
    && (!HasLine(g, X) && !HasLine(g, O) && !Full(g) ==>
          && result.Accepted?
          && r.currentPlayer == Other(room.currentPlayer)
          && r.gameOver == room.gameOver && r.winner == room.winner
          && r.players == room.players)
    && (!HasLine(g, X) && !HasLine(g, O) && Full(g) ==>
          && result.Accepted?
          && r.gameOver && r.winner == room.winner
          && r.currentPlayer == room.currentPlayer
          && r.players == room.players)
    && (HasLine(g, X) || HasLine(g, O) ==>
          && r.gameOver
          && r.winner.Some? && HasLine(g, r.winner.value)
          && r.currentPlayer == room.currentPlayer
          && LossCharged(room.players, r.players, r.winner.value)
          && (result.MatchEnded? <==>
                exists k :: IsFirstLoser(room.players, k, r.winner.value)
                            && room.players[k].losses + 1 >= LossLimit)
          && !result.Rejected?
          && (result.MatchEnded? && result.matchWinner.Some? ==>
                exists i :: IsFirstHolder(r.players, i, r.winner.value)
                            && r.players[i] == result.matchWinner.value)
          && (result.MatchEnded? && result.matchWinner.None? ==>
                forall i :: 0 <= i < |r.players| ==> r.players[i].symbol != r.winner.value))
  }

  /** The part of `makeMove` after the mark is written: winner check, loss
      charging, draw check, turn switch. */
  function Settle(room: Room, g: Grid): (res: (MoveResult, Room))
    ensures Settled(room, g, res)
  {
    var w := CheckWinner(g);
    if w.Some? then
      var charged := ChargeLoss(room.players, w.value);
      var ps := charged.0;
      var after := room.(board := g, winner := w, gameOver := true, players := ps);
      if charged.1.Some? && ps[charged.1.value].losses >= LossLimit then
        var found := FirstWhere(ps, (p: Player) => p.symbol == w.value);
        var matchWinner := if found.Some? then Some(ps[found.value]) else None;
        (MatchEnded(matchWinner), after)
      else
        (Accepted, after)
    else if Full(g) then
      (Accepted, room.(board := g, gameOver := true))
    else
      (Accepted, room.(board := g, currentPlayer := Other(room.currentPlayer)))
  }

  /** `makeMove(playerId, position)`: rejected, with nothing changed, exactly
      when the id is unknown, its (first) entry's symbol is not the current
      turn, the cell is occupied, or the round is over; otherwise the current
      mark is written at `pos` (every other cell kept) and the round is
      settled as `Settled` describes. */
  function MakeMove(room: Room, id: PlayerId, pos: Position): (res: (MoveResult, Room))
    ensures res.0.Rejected? <==> MoveRejected(room, id, pos)
    ensures res.0.Rejected? ==> res.1 == room
    ensures !res.0.Rejected? ==>
              && res.1.board[pos] == Some(room.currentPlayer)
              && (forall i :: 0 <= i < 9 && i != pos ==> res.1.board[i] == room.board[i])
              && Settled(room, room.board[pos := Some(room.currentPlayer)], res)
  {
    match FirstWhere(room.players, (p: Player) => p.id == id)
    case None => (Rejected, room)
    case Some(i) =>
      assert IsMover(room.players, i, id);
      if room.players[i].symbol != room.currentPlayer || room.board[pos].Some? || room.gameOver then
        (Rejected, room)
      else
        Settle(room, room.board[pos := Some(room.currentPlayer)])
  }

  /* ---------------- reset, reset_match, getGameState ---------------- */

  /** `reset()`: back to an empty board with X to move and no winner; the
      roster, including every loss count, is untouched. */
  function Reset(room: Room): (r: Room)
    ensures FreshRound(r)
    ensures r.players == room.players && r.roomId == room.roomId
  {
    room.(board := EmptyGrid(), currentPlayer := X, winner := None, gameOver := false)
  }

  /** The `reset_match` handler's effect on a room: `reset()` and then every
      entry's losses set to 0, entries otherwise kept in order. */
  function ResetMatch(room: Room): (r: Room)
    ensures FreshRound(r) && r.roomId == room.roomId
    ensures |r.players| == |room.players|
    ensures forall i :: 0 <= i < |room.players| ==>
              r.players[i] == room.players[i].(losses := 0)
    ensures !GetGameState(r).matchOver
  {
    var r := Reset(room);
    r.(players := seq(|r.players|, i requires 0 <= i < |r.players| => r.players[i].(losses := 0)))
  }

  /** The `matchWinner` computed by `getGameState()`: the first entry whose
      opponent (the first entry with another id) has reached the loss limit. */
  function MatchWinner(ps: seq<Player>): (w: Option<Player>)
    ensures w.Some? <==> exists i :: 0 <= i < |ps| && Beaten(ps, i)
    ensures w.Some? ==>
              exists i :: 0 <= i < |ps| && Beaten(ps, i) && w.value == ps[i]
                          && forall j :: 0 <= j < i ==> !Beaten(ps, j)
  {
    BeatenAgrees(ps);
    var found := FirstWhere(ps, (p: Player) => OpponentBeaten(ps, p));
    if found.Some? then Some(ps[found.value]) else None
  }

  /** With two entries of distinct ids the match is over exactly when either
      has reached the loss limit, and the winner is the other one (the first
      entry when both have); fewer than two entries never end a match. */
  lemma MatchWinnerOfPair(ps: seq<Player>)
    ensures |ps| < 2 ==> MatchWinner(ps).None?
    ensures |ps| == 2 && ps[0].id != ps[1].id ==>
              && (MatchWinner(ps).Some? <==> ps[0].losses >= LossLimit || ps[1].losses >= LossLimit)
              && (ps[1].losses >= LossLimit ==> MatchWinner(ps) == Some(ps[0]))
              && (ps[1].losses < LossLimit <= ps[0].losses ==> MatchWinner(ps) == Some(ps[1]))
  {
    if |ps| < 2 {
      forall i | 0 <= i < |ps| ensures !Beaten(ps, i) {
        assert forall j :: IsFirstOther(ps, j, ps[i].id) ==> j == i;
      }
    } else if |ps| == 2 && ps[0].id != ps[1].id {
      assert IsFirstOther(ps, 1, ps[0].id);
      assert IsFirstOther(ps, 0, ps[1].id);
      assert forall j :: IsFirstOther(ps, j, ps[0].id) ==> j == 1;
      assert forall j :: IsFirstOther(ps, j, ps[1].id) ==> j == 0;
      assert Beaten(ps, 0) <==> ps[1].losses >= LossLimit;
      assert Beaten(ps, 1) <==> ps[0].losses >= LossLimit;
    }
  }

  /** `getGameState()`: the snapshot. The match winner is the first entry
      whose opponent (the first entry with another id) has reached the loss
      limit; the match is over exactly when such an entry exists. With two
      distinct entries this means either has reached the limit, and fewer than
      two entries never make a match over. */
  function GetGameState(room: Room): (s: GameState)
    ensures s.board == room.board && s.currentPlayer == room.currentPlayer
    ensures s.winner == room.winner && s.gameOver == room.gameOver
    ensures s.players == room.players && s.roomId == room.roomId
    ensures s.matchOver <==> s.matchWinner.Some?
    ensures s.matchOver <==> exists i :: 0 <= i < |room.players| && Beaten(room.players, i)
    ensures s.matchWinner.Some? ==>
              exists i :: 0 <= i < |room.players| && Beaten(room.players, i)
                          && s.matchWinner.value == room.players[i]
                          && forall j :: 0 <= j < i ==> !Beaten(room.players, j)
    ensures |room.players| < 2 ==> !s.matchOver
    ensures |room.players| == 2 && room.players[0].id != room.players[1].id ==>
              && (s.matchOver <==> room.players[0].losses >= LossLimit || room.players[1].losses >= LossLimit)
              && (room.players[1].losses >= LossLimit ==> s.matchWinner == Some(room.players[0]))
              && (room.players[1].losses < LossLimit <= room.players[0].losses ==>
                    s.matchWinner == Some(room.players[1]))
  {
    MatchWinnerOfPair(room.players);
    var matchWinner := MatchWinner(room.players);
    GameState(room.board, room.currentPlayer, room.winner, room.gameOver,
              room.players, room.roomId, matchWinner, matchWinner.Some?)
  }

  /** The callback of the outer `find` in `getGameState`. */
  predicate OpponentBeaten(ps: seq<Player>, p: Player) {
    match FirstWhere(ps, (q: Player) => q.id != p.id)
    case None => false
    case Some(j) => ps[j].losses >= LossLimit
  }

  lemma BeatenAgrees(ps: seq<Player>)
    ensures forall i :: 0 <= i < |ps| ==> (OpponentBeaten(ps, ps[i]) <==> Beaten(ps, i))
  {
    forall i | 0 <= i < |ps|
      ensures OpponentBeaten(ps, ps[i]) <==> Beaten(ps, i)
    {
      var id := ps[i].id;
      var found := FirstWhere(ps, (q: Player) => q.id != id);
      if found.Some? {
        assert IsFirstOther(ps, found.value, id);
      }
    }
  }
}

=== FILE: room_invariant.dfy ===
/** What every room reachable from `new GameRoom` satisfies, and the proofs
    that the constructor, `addPlayer`, `makeMove`, `reset` and the
    `reset_match` effect keep it. */
module RoomInvariant {
  import opened Wrappers
  import opened Board
  import opened GameRoom

  /** The board, turn and round outcome agree:
      - X has placed as many marks as O, or one more; X is to place next
        exactly when the counts are equal, unless the round is over (then the
        last mover, who is still `currentPlayer`, has just placed);
      - a round in progress has no filled line, no winner and a free cell;
      - a won round was won by the mark that moved last, and the other mark
        has no line;
      - a drawn round has a full board and no line. */
  ghost predicate RoundInvariant(r: Room) {
    && Count(r.board, X) == Count(r.board, O) + (if (r.currentPlayer == X) == r.gameOver then 1 else 0)
    && (!r.gameOver ==> r.winner.None? && !HasLine(r.board, X) && !HasLine(r.board, O) && !Full(r.board))
    && (r.gameOver && r.winner.Some? ==>
          && r.winner.value == r.currentPlayer
          && HasLine(r.board, r.currentPlayer)
          && !HasLine(r.board, Other(r.currentPlayer)))
    && (r.gameOver && r.winner.None? ==> Full(r.board) && !HasLine(r.board, X) && !HasLine(r.board, O))
  }

  /** A round at its starting point satisfies the invariant. */
  lemma FreshRoundSatisfies(r: Room)
    requires FreshRound(r)
    ensures RoundInvariant(r)
  {
    CountEmpty(r.board, X);
    CountEmpty(r.board, O);
    assert r.board[0].None?;
  }

  /** `new GameRoom(id)`, `reset()` and the match reset all start a round
      that satisfies the invariant. */
  lemma ResetsEstablish(id: RoomId, room: Room)
    ensures RoundInvariant(NewRoom(id))
    ensures RoundInvariant(Reset(room))
    ensures RoundInvariant(ResetMatch(room))
  {
    FreshRoundSatisfies(NewRoom(id));
    FreshRoundSatisfies(Reset(room));
    FreshRoundSatisfies(ResetMatch(room));
  }

  /** Joining never disturbs the round. */
  lemma AddPlayerPreserves(room: Room, id: PlayerId, username: string, isOwner: bool)
    requires RoundInvariant(room)
    ensures RoundInvariant(AddPlayer(room, id, username, isOwner))
  {
  }

  /** An accepted move keeps the invariant, and in a room satisfying it only
      the mover can win: exactly one of "round continues with the turn
      passed", "mover won" and "draw" results. */
  lemma MakeMovePreserves(room: Room, id: PlayerId, pos: Position)
    requires RoundInvariant(room)
    ensures RoundInvariant(MakeMove(room, id, pos).1)
    ensures var (result, r) := MakeMove(room, id, pos);
            !result.Rejected? ==>
              || (!r.gameOver && r.currentPlayer == Other(room.currentPlayer))
              || (r.gameOver && r.winner == Some(room.currentPlayer) && r.currentPlayer == room.currentPlayer)
              || (r.gameOver && r.winner.None? && Full(r.board) && r.currentPlayer == room.currentPlayer)
  {
    var (result, r) := MakeMove(room, id, pos);
    if !result.Rejected? {
      var m := room.currentPlayer;
      var g := room.board[pos := Some(m)];
      assert !room.gameOver && room.board[pos].None?;
      CountPlace(room.board, pos, m, X);
      CountPlace(room.board, pos, m, O);
      PlaceCompletesOnlyMover(room.board, pos, m);
      assert r.board == g;
      if HasLine(g, X) || HasLine(g, O) {
        assert HasLine(g, m) && !HasLine(g, Other(m));
        assert r.winner == Some(m);
      }
    }
  }
}

=== FILE: scenarios.dfy ===
/** Concrete runs of the model, and consequences of the handlers' order of
    effects that a reader of the server might not expect. */
module Scenarios {
  import opened Wrappers
  import opened Board
  import opened GameRoom
  import opened Server

  /** An accepted move that neither fills a line nor the board: the mark is
      written and the turn passes, nothing else changes. */
  lemma OrdinaryMoveStep(room: Room, id: PlayerId, pos: Position, i: nat)
    requires IsMover(room.players, i, id) && room.players[i].symbol == room.currentPlayer
    requires room.board[pos].None? && !room.gameOver
    requires var g := room.board[pos := Some(room.currentPlayer)];
             !HasLine(g, X) && !HasLine(g, O) && !Full(g)
    ensures MakeMove(room, id, pos) ==
              (Accepted, room.(board := room.board[pos := Some(room.currentPlayer)],
                               currentPlayer := Other(room.currentPlayer)))
  {
  }

  /** An accepted move that fills a line for the mover (and none for the
      other mark): the round ends with the mover as winner and the first
      opposing entry, `k`, is charged one loss. */
  lemma WinningMoveStep(room: Room, id: PlayerId, pos: Position, i: nat, k: nat)
    requires IsMover(room.players, i, id) && room.players[i].symbol == room.currentPlayer
    requires room.board[pos].None? && !room.gameOver
    requires var g := room.board[pos := Some(room.currentPlayer)];
             HasLine(g, room.currentPlayer) && !HasLine(g, Other(room.currentPlayer))
    requires IsFirstLoser(room.players, k, room.currentPlayer)
    ensures var r := MakeMove(room, id, pos).1;
            && r.board == room.board[pos := Some(room.currentPlayer)]
            && r.gameOver && r.winner == Some(room.currentPlayer)
            && r.currentPlayer == room.currentPlayer
            && r.players == room.players[k := room.players[k].(losses := room.players[k].losses + 1)]
  {
    var m := room.currentPlayer;
    var r := MakeMove(room, id, pos).1;
    WinningMoveCharges(room, id, pos, i);
    var expected := room.players[k := room.players[k].(losses := room.players[k].losses + 1)];
    assert |r.players| == |expected|;
    forall j | 0 <= j < |r.players| ensures r.players[j] == expected[j] {
      if j == k {
      } else {
        assert !IsFirstLoser(room.players, j, m);
      }
    }
  }

  /** A move by the player to move, into a free cell, that fills a line for
      the mover only: the round ends with the mover as winner and the roster
      charged as `LossCharged` describes. */
  lemma WinningMoveCharges(room: Room, id: PlayerId, pos: Position, i: nat)
    requires IsMover(room.players, i, id) && room.players[i].symbol == room.currentPlayer
    requires room.board[pos].None? && !room.gameOver
    requires var g := room.board[pos := Some(room.currentPlayer)];
             HasLine(g, room.currentPlayer) && !HasLine(g, Other(room.currentPlayer))
    ensures var r := MakeMove(room, id, pos).1;
            && r.board == room.board[pos := Some(room.currentPlayer)]
            && r.gameOver && r.winner == Some(room.currentPlayer)
            && r.currentPlayer == room.currentPlayer
            && LossCharged(room.players, r.players, room.currentPlayer)
  {
    var m := room.currentPlayer;
    var g := room.board[pos := Some(m)];
    var res := MakeMove(room, id, pos);
    assert !MoveRejected(room, id, pos) by {
      forall i' | IsMover(room.players, i', id) ensures i' == i {
        assert !(i' < i) && !(i < i');
      }
    }
    assert Settled(room, g, res);
  }

  /** Two players in room "ABCD": "A" joined first (X, owner), then "B" (O). */
  function TwoPlayerRoom(): Room {
    AddPlayer(AddPlayer(NewRoom("ABCD"), "A", "Ann", true), "B", "Bob", false)
  }

  /** The two-player room starts a fresh round with A on X and B on O. */
  lemma TwoPlayerRoomStart()
    ensures FreshRound(TwoPlayerRoom()) && AgainstEachOther(TwoPlayerRoom())
    ensures TwoPlayerRoom().players[0].losses == 0 && TwoPlayerRoom().players[1].losses == 0
  {
    var r := TwoPlayerRoom();
    var one := AddPlayer(NewRoom("ABCD"), "A", "Ann", true);
    assert one.players[0].symbol == X && one.players[0].id == "A";
    assert r.players[0] == one.players[0];
  }

  /** X takes the top row while O plays 3 and 4. */
  function TopRowForX(room: Room): Room {
    var r1 := MakeMove(room, "A", 0).1;
    var r2 := MakeMove(r1, "B", 3).1;
    var r3 := MakeMove(r2, "A", 1).1;
    var r4 := MakeMove(r3, "B", 4).1;
    MakeMove(r4, "A", 2).1
  }

  /** The players of the scenarios: "A" holds X and "B" holds O. */
  predicate AgainstEachOther(room: Room) {
    && |room.players| == 2
    && room.players[0].id == "A" && room.players[0].symbol == X
    && room.players[1].id == "B" && room.players[1].symbol == O
  }

  /** X at 0, O at 3, X at 1, O at 4, starting from an empty board. */
  function OpeningBoard(b: Grid): Grid {
    b[0 := Some(X)][3 := Some(O)][1 := Some(X)][4 := Some(O)]
  }

  /** The first two moves of the top-row game: X to move again. */
  lemma OpeningFirstPair(room: Room)
    requires FreshRound(room) && AgainstEachOther(room)
    ensures MakeMove(MakeMove(room, "A", 0).1, "B", 3).1
            == room.(board := room.board[0 := Some(X)][3 := Some(O)])
  {
    assert IsMover(room.players, 0, "A") && IsMover(room.players, 1, "B");
    var g1 := room.board[0 := Some(X)];
    assert !Full(g1) by { assert g1[8].None?; }
    OrdinaryMoveStep(room, "A", 0, 0);
    var r1 := MakeMove(room, "A", 0).1;
    var g2 := g1[3 := Some(O)];
    assert !Full(g2) by { assert g2[8].None?; }
    OrdinaryMoveStep(r1, "B", 3, 1);
  }

  /** Moves three and four of the top-row game: X to move again. */
  lemma OpeningSecondPair(room: Room)
    requires FreshRound(room) && AgainstEachOther(room)
    ensures var r := room.(board := room.board[0 := Some(X)][3 := Some(O)]);
            MakeMove(MakeMove(r, "A", 1).1, "B", 4).1 == room.(board := OpeningBoard(room.board))
  {
    var r := room.(board := room.board[0 := Some(X)][3 := Some(O)]);
    assert IsMover(r.players, 0, "A") && IsMover(r.players, 1, "B");
    var g3 := r.board[1 := Some(X)];
    assert !Full(g3) by { assert g3[8].None?; }
    OrdinaryMoveStep(r, "A", 1, 0);
    var r3 := MakeMove(r, "A", 1).1;
    var g4 := g3[4 := Some(O)];
    assert !Full(g4) by { assert g4[8].None?; }
    OrdinaryMoveStep(r3, "B", 4, 1);
  }

  /** The fifth move completes the top row for X and charges B a loss. */
  lemma OpeningFinish(room: Room)
    requires FreshRound(room) && AgainstEachOther(room)
    ensures var r := MakeMove(room.(board := OpeningBoard(room.board)), "A", 2).1;
            && r.gameOver && r.winner == Some(X)
            && r.players == [room.players[0], room.players[1].(losses := room.players[1].losses + 1)]
  {
    var r4 := room.(board := OpeningBoard(room.board));
    OpeningFinishIsWinning(room);
    WinningMoveStep(r4, "A", 2, 0, 1);
    var b := room.players[1];
    var ps := room.players[1 := b.(losses := b.losses + 1)];
    assert ps == [room.players[0], b.(losses := b.losses + 1)];
  }

  /** After the four opening moves, A may move at 2, and doing so fills the
      top row for X alone; B is the first entry not holding X. */
  lemma OpeningFinishIsWinning(room: Room)
    requires FreshRound(room) && AgainstEachOther(room)
    ensures var r4 := room.(board := OpeningBoard(room.board));
            var g5 := r4.board[2 := Some(X)];
            && IsMover(r4.players, 0, "A") && r4.players[0].symbol == r4.currentPlayer
            && r4.board[2].None? && !r4.gameOver
            && HasLine(g5, X) && !HasLine(g5, O)
            && IsFirstLoser(r4.players, 1, X)
  {
    var r4 := room.(board := OpeningBoard(room.board));
    var g5 := r4.board[2 := Some(X)];
    assert RowOf(g5, 0, X);
    assert !HasLine(g5, O) by { assert g5[0] == Some(X) && g5[1] == Some(X) && g5[2] == Some(X) && g5[5].None?; }
  }

  /** From a fresh round with A (X) and B (O), the top-row game ends in a win
      for X that charges B one more loss and leaves A's entry as it was. */
  lemma TopRowWins(room: Room)
    requires FreshRound(room) && AgainstEachOther(room)
    ensures var r := TopRowForX(room);
            && r.gameOver && r.winner == Some(X)
            && r.players == [room.players[0], room.players[1].(losses := room.players[1].losses + 1)]
  {
    OpeningFirstPair(room);
    OpeningSecondPair(room);
    OpeningFinish(room);
  }

  /** X takes the top row of a fresh round between A and B: the round is
      over, won by X, and B (only B) has one more loss. */
  function TopRowForXOutcome(room: Room): (r: Room)
    requires FreshRound(room) && AgainstEachOther(room)
    ensures r == TopRowForX(room)
    ensures r.gameOver && r.winner == Some(X)
    ensures r.players == [room.players[0], room.players[1].(losses := room.players[1].losses + 1)]
  {
    TopRowWins(room);
    TopRowForX(room)
  }

  /** Join order assigns X then O; A playing 0, 1, 2 against B's 3, 4 wins
      the round for X and charges B one loss, which does not end the match. */
  lemma FirstRoundScenario()
    ensures FreshRound(TwoPlayerRoom()) && AgainstEachOther(TwoPlayerRoom())
    ensures var r := TopRowForX(TwoPlayerRoom());
            && r.gameOver && r.winner == Some(X)
            && |r.players| == 2
            && r.players[0].losses == 0 && r.players[1].losses == 1
            && !GetGameState(r).matchOver
  {
    TwoPlayerRoomStart();
    FirstRoundOf(TwoPlayerRoom());
  }

  /** The first top-row round between A and B, both without losses: X wins,
      B has one loss, A none, and the match goes on; `reset()` then starts a
      new round that keeps B's loss. */
  lemma FirstRoundOf(room: Room)
    requires FreshRound(room) && AgainstEachOther(room)
    requires room.players[0].losses == 0 && room.players[1].losses == 0
    ensures var r := TopRowForX(room);
            && r.gameOver && r.winner == Some(X)
            && |r.players| == 2
            && r.players[0].losses == 0 && r.players[1].losses == 1
            && !GetGameState(r).matchOver
    ensures var r := Reset(TopRowForX(room));
            && FreshRound(r) && |r.players| == 2 && r.players[1].losses == 1
  {
    var r := TopRowForXOutcome(room);
    assert r.players[0].id != r.players[1].id;
  }

  /** After that round, `reset()` starts a new round with X to move and B's
      loss kept. */
  lemma ResetAfterFirstRound()
    ensures var r := Reset(TopRowForX(TwoPlayerRoom()));
            && FreshRound(r) && |r.players| == 2 && r.players[1].losses == 1
  {
    TwoPlayerRoomStart();
    FirstRoundOf(TwoPlayerRoom());
  }

  /** `n` top-row rounds, each started with `reset()`: every round is won
      by X and charges B exactly one loss, leaving A's entry alone. */
  function Rounds(room: Room, n: nat): (r: Room)
    requires FreshRound(room) && AgainstEachOther(room)
    ensures |r.players| == 2
    ensures r.players[0] == room.players[0]
    ensures r.players[1] == room.players[1].(losses := room.players[1].losses + n)
    ensures n > 0 ==> r.gameOver && r.winner == Some(X)
  {
    if n == 0 then room else TopRowForXOutcome(Reset(Rounds(room, n - 1)))
  }

  /** Three such rounds end the match: B has three losses, the match is over
      and the snapshot names A as the match winner. */
  lemma MatchScenario()
    ensures FreshRound(TwoPlayerRoom()) && AgainstEachOther(TwoPlayerRoom())
    ensures var r := Rounds(TwoPlayerRoom(), 3);
            && r.players[0].id == "A" && r.players[1].losses == 3
            && GetGameState(r).matchOver
            && GetGameState(r).matchWinner == Some(r.players[0])
  {
    TwoPlayerRoomStart();
    RoundsEndMatch(TwoPlayerRoom(), 3);
  }

  /** Once B's losses reach the limit through top-row rounds, the match is
      over and A, whose entry the rounds never touch, is the match winner. */
  lemma RoundsEndMatch(room: Room, n: nat)
    requires FreshRound(room) && AgainstEachOther(room)
    requires room.players[1].losses + n >= LossLimit
    ensures var r := Rounds(room, n);
            && GetGameState(r).matchOver
            && GetGameState(r).matchWinner == Some(room.players[0])
  {
    var r := Rounds(room, n);
    assert r.players[0].id != r.players[1].id;
  }

  /** The roster of room "R" after "a" (Ann, owner) and then "b" (Bob)
      joined through fresh connections. */
  lemma {:induction false} TwoJoins()
    ensures var j1 := JoinRoom(EmptyRegistry, NoSession, "a", "R", "Ann", true);
            var j2 := JoinRoom(j1.registry, NoSession, "b", "R", "Bob", false);
            && j1.session == Session(Some("a"), Some("R"))
            && "R" in j2.registry.rooms
            && j2.registry.rooms["R"].players == [Player("a", "Ann", X, 0, true), Player("b", "Bob", O, 0, false)]
  {
    var j1 := JoinRoom(EmptyRegistry, NoSession, "a", "R", "Ann", true);
    JoinedRoster(EmptyRegistry, NoSession, "a", "R", "Ann", true);
    assert RoomOrNew(EmptyRegistry, "R").players == [];
    JoinedRoster(j1.registry, NoSession, "b", "R", "Bob", false);
  }

  /** An admitted join appends exactly one entry to the room's roster. */
  lemma JoinedRoster(reg: Registry, sess: Session, freshId: PlayerId,
                     roomId: RoomId, username: string, isOwner: bool)
    requires |RoomOrNew(reg, roomId).players| < 2
    ensures var before := RoomOrNew(reg, roomId).players;
            var st := JoinRoom(reg, sess, freshId, roomId, username, isOwner);
            && roomId in st.registry.rooms
            && st.registry.rooms[roomId].players
               == before + [Player(freshId, username, if |before| == 0 then X else O, 0, isOwner)]
  {
  }

  /** When "a"'s connection closes, only Bob's entry (holding O) is left. */
  lemma {:induction false} FirstLeaves(reg: Registry)
    requires "R" in reg.rooms
    requires reg.rooms["R"].players == [Player("a", "Ann", X, 0, true), Player("b", "Bob", O, 0, false)]
    ensures var c := Close(reg, Session(Some("a"), Some("R")));
            "R" in c.registry.rooms && c.registry.rooms["R"].players == [Player("b", "Bob", O, 0, false)]
  {
    CloseLeavesPartner(reg, Session(Some("a"), Some("R")), 0);
  }

  /** A close, not only `reset_match`, can end the "match over" state: when
      the beaten player's connection closes, the winner is left alone in
      the room and a one-entry roster never has a match winner. */
  lemma {:induction false} LeavingClearsMatchOver(reg: Registry)
    requires "R" in reg.rooms
    requires reg.rooms["R"].players == [Player("a", "Ann", X, 0, true), Player("b", "Bob", O, 3, false)]
    ensures GetGameState(reg.rooms["R"]).matchOver
    ensures var c := Close(reg, Session(Some("b"), Some("R")));
            && "R" in c.registry.rooms
            && c.registry.rooms["R"].players == [Player("a", "Ann", X, 0, true)]
            && !GetGameState(c.registry.rooms["R"]).matchOver
  {
    var ps := reg.rooms["R"].players;
    assert ps[0].id != ps[1].id && ps[1].losses >= LossLimit;
    CloseLeavesPartner(reg, Session(Some("b"), Some("R")), 1);
  }

  /** In a room of two entries with different ids, closing the connection
      of entry `j` leaves the room registered with exactly the other entry. */
  lemma CloseLeavesPartner(reg: Registry, sess: Session, j: nat)
    requires Truthy(sess.playerId) && Truthy(sess.currentRoomId)
    requires sess.currentRoomId.value in reg.rooms
    requires var ps := reg.rooms[sess.currentRoomId.value].players;
             |ps| == 2 && j < 2 && ps[j].id == sess.playerId.value && ps[1 - j].id != sess.playerId.value
    ensures var roomId := sess.currentRoomId.value;
            var c := Close(reg, sess);
            && roomId in c.registry.rooms
            && c.registry.rooms[roomId].players == [reg.rooms[roomId].players[1 - j]]
  {
    var roomId := sess.currentRoomId.value;
    var id := sess.playerId.value;
    var before := reg.rooms[roomId].players;
    assert !(forall i :: 0 <= i < |before| ==> before[i].id == id);
    var c := Close(reg, sess);
    assert roomId in c.registry.rooms;
    PartnerLeft(before, c.registry.rooms[roomId].players, id, j);
  }

  /** Removing the entries with `id` from a two-entry roster whose entry `j`
      alone carries `id` leaves exactly the other entry. */
  lemma PartnerLeft(before: seq<Player>, left: seq<Player>, id: PlayerId, j: nat)
    requires |before| == 2 && j < 2 && before[j].id == id && before[1 - j].id != id
    requires forall q :: q in left <==> q in before && q.id != id
    requires forall q :: multiset(left)[q] == if q.id != id then multiset(before)[q] else 0
    ensures left == [before[1 - j]]
  {
    var other := before[1 - j];
    assert before == [before[0], before[1]];
    assert multiset(before) == multiset{before[0], before[1]};
    assert before[j] != other;
    assert multiset(left)[other] == 1;
    OnlyOneLeft(left, other);
  }

  /** A roster whose entries are all `p`, with `p` occurring once, is `[p]`. */
  lemma OnlyOneLeft(left: seq<Player>, p: Player)
    requires multiset(left)[p] == 1
    requires forall q :: q in left ==> q == p
    ensures left == [p]
  {
    assert multiset(left) == multiset{p} by {
      forall q ensures multiset(left)[q] == multiset{p}[q] {
        if q != p {
          assert q !in left;
        }
      }
    }
    assert |left| == 1 by {
      assert |multiset(left)| == |left|;
    }
    assert left[0] in left;
  }

  /** Marks are not guaranteed distinct: after X's connection closes, the
      next joiner is given O although the remaining player already holds O. */
  lemma {:induction false} MarksCanCoincide()
    ensures var j1 := JoinRoom(EmptyRegistry, NoSession, "a", "R", "Ann", true);
            var j2 := JoinRoom(j1.registry, NoSession, "b", "R", "Bob", false);
            var c := Close(j2.registry, j1.session);
            var j3 := JoinRoom(c.registry, NoSession, "c", "R", "Cy", false);
            && "R" in j3.registry.rooms
            && |j3.registry.rooms["R"].players| == 2
            && j3.registry.rooms["R"].players[0].symbol == O
            && j3.registry.rooms["R"].players[1].symbol == O
  {
    TwoJoins();
    var j1 := JoinRoom(EmptyRegistry, NoSession, "a", "R", "Ann", true);
    var j2 := JoinRoom(j1.registry, NoSession, "b", "R", "Bob", false);
    FirstLeaves(j2.registry);
    var c := Close(j2.registry, j1.session);
    var j3 := JoinRoom(c.registry, NoSession, "c", "R", "Cy", false);
    var p3 := j3.registry.rooms["R"].players;
    assert p3[..1] == [Player("b", "Bob", O, 0, false)];
    assert p3[0] == p3[..1][0];
  }

  /** A join refused because the room is full still rebinds the session to
      that room, so the refused connection can then reset the match there. */
  lemma RefusedJoinerCanResetMatch(reg: Registry, sess: Session, freshId: PlayerId,
                                   roomId: RoomId, username: string, isOwner: bool)
    requires roomId in reg.rooms && |reg.rooms[roomId].players| >= 2 && roomId != ""
    ensures var j := JoinRoom(reg, sess, freshId, roomId, username, isOwner);
            && j.out == [Reply(Error)]
            && ResetMatchStep(j.registry, j.session).registry.rooms[roomId] == ResetMatch(reg.rooms[roomId])
  {
  }

  /** Joining a second room rebinds the session, so the entry made by the
      first join is never removed when the connection closes. */
  lemma RejoinStrandsEarlierEntry(reg: Registry, sess: Session, freshId: PlayerId,
                                  first: RoomId, second: RoomId, username: string, isOwner: bool)
    requires sess.currentRoomId == Some(first) && first != second && first in reg.rooms
    ensures var j := JoinRoom(reg, sess, freshId, second, username, isOwner);
            var c := Close(j.registry, j.session);
            first in c.registry.rooms && c.registry.rooms[first] == reg.rooms[first]
  {
  }
}

=== FILE: seqs.dfy ===
/** The two array operations the server relies on: `Array.prototype.find`
    (first element satisfying a predicate) and `Array.prototype.filter`. */
module Seqs {
  import opened Wrappers

  /** Index of the first element of `s` satisfying `p`, or None. */
  function FirstWhere<T>(s: seq<T>, p: T -> bool): (r: Option<nat>)
    ensures r.Some? ==> r.value < |s| && p(s[r.value])
    ensures r.Some? ==> forall j :: 0 <= j < r.value ==> !p(s[j])
    ensures r.None? <==> forall j :: 0 <= j < |s| ==> !p(s[j])
  {
    if |s| == 0 then None
    else if p(s[0]) then Some(0)
    else match FirstWhere(s[1..], p)
      case None => None
      case Some(k) => Some(k + 1)
  }

  /** `r` is obtained from `s` by deleting elements: the elements of `r`
      occur in `s` in the same relative order. */
  predicate IsSubsequence<T(==)>(r: seq<T>, s: seq<T>)
    decreases |s|
  {
    if |r| == 0 then true
    else if |s| == 0 then false
    else (r[0] == s[0] && IsSubsequence(r[1..], s[1..])) || IsSubsequence(r, s[1..])
  }

  /** The elements of `s` satisfying `p`, in their original order. */
  function Filter<T(==,!new)>(s: seq<T>, p: T -> bool): (r: seq<T>)
    ensures |r| <= |s|
    ensures IsSubsequence(r, s)
    ensures forall x :: x in r <==> x in s && p(x)
    ensures (forall j :: 0 <= j < |s| ==> p(s[j])) ==> r == s
    ensures |r| == 0 <==> forall j :: 0 <= j < |s| ==> !p(s[j])
    ensures forall x :: multiset(r)[x] == if p(x) then multiset(s)[x] else 0
  {
    if |s| == 0 then []
    else
      var rest := Filter(s[1..], p);
      var r := if p(s[0]) then [s[0]] + rest else rest;
      FilterConsOrder(s, p, rest, r);
      FilterConsContents(s, p, rest, r);
      r
  }

  /** The step of `Filter` on a non-empty sequence keeps the order. */
  lemma FilterConsOrder<T>(s: seq<T>, p: T -> bool, rest: seq<T>, r: seq<T>)
    requires |s| > 0 && IsSubsequence(rest, s[1..])
    requires r == if p(s[0]) then [s[0]] + rest else rest
    ensures IsSubsequence(r, s)
  {
    if p(s[0]) {
      assert r[0] == s[0] && r[1..] == rest;
    }
  }

  /** The step of `Filter` on a non-empty sequence keeps exactly the
      elements satisfying `p`, with their multiplicities. */
  lemma FilterConsContents<T(!new)>(s: seq<T>, p: T -> bool, rest: seq<T>, r: seq<T>)
    requires |s| > 0
    requires |rest| <= |s| - 1
    requires forall x :: x in rest <==> x in s[1..] && p(x)
    requires (forall j :: 0 <= j < |s| - 1 ==> p(s[1..][j])) ==> rest == s[1..]
    requires forall x :: multiset(rest)[x] == if p(x) then multiset(s[1..])[x] else 0
    requires r == if p(s[0]) then [s[0]] + rest else rest
    ensures |r| <= |s|
    ensures forall x :: x in r <==> x in s && p(x)
    ensures (forall j :: 0 <= j < |s| ==> p(s[j])) ==> r == s
    ensures |r| == 0 <==> forall j :: 0 <= j < |s| ==> !p(s[j])
    ensures forall x :: multiset(r)[x] == if p(x) then multiset(s)[x] else 0
  {
    assert s == [s[0]] + s[1..];
    assert forall x :: x in s <==> x == s[0] || x in s[1..];
    assert multiset(s) == multiset{s[0]} + multiset(s[1..]);
    if p(s[0]) {
      assert forall x :: x in r <==> x == s[0] || x in rest;
      assert multiset(r) == multiset{s[0]} + multiset(rest);
    }
  }
}

=== FILE: server.dfy ===
/** The room registry and the per-connection handlers of
    scripts/websocket-server.js (`join_room`, `make_move`, `reset_game`,
    `reset_match`, and the `close` handler) as pure transitions over the
    `rooms` map and a connection's session record. Sending is modelled as
    the list of messages a transition would send. */
module Server {
  import opened Wrappers
  import opened Seqs
  import opened Board
  import opened GameRoom
  import opened RoomInvariant

  /** The two variables each connection keeps: `playerId` and `currentRoomId`
      (both `null` until the first `join_room`). */
  datatype Session = Session(playerId: Option<PlayerId>, currentRoomId: Option<RoomId>)

  /** The connection's state before any message. */
  const NoSession: Session := Session(None, None)

  /** The server's two global maps: `rooms` (room id to room) and the key set
      of `players` (the player ids that have a socket entry). */
  datatype Registry = Registry(rooms: map<RoomId, Room>, sockets: set<PlayerId>)

  const EmptyRegistry: Registry := Registry(map[], {})

  /** The `type` of an outbound message. */
  datatype MessageKind =
    | PlayerJoined | GameStateUpdate | MoveMade | GameOver
    | MatchOver | GameReset | MatchReset | Error

  /** A message sent on the requesting socket only, or broadcast to the
      listed player ids (roster entries that still have a socket entry). */
  datatype Outbound = Reply(kind: MessageKind) | Broadcast(kind: MessageKind, recipients: seq<PlayerId>)

  /** An inbound message after JSON parsing; any other `type` is ignored. */
  datatype Request =
    | JoinRoomRequest(roomId: RoomId, username: string, isOwner: bool)
    | MakeMoveRequest(position: Position)
    | ResetGameRequest
    | ResetMatchRequest
    | UnknownRequest

  /** The outcome of handling one event on one connection. */
  datatype Step = Step(registry: Registry, session: Session, out: seq<Outbound>)

  /** JavaScript truthiness of a `null`-or-string variable: `null` and the
      empty string are falsy. */
  predicate Truthy(s: Option<string>) {
    s.Some? && s.value != ""
  }

  /** The ids of a roster, in order. */
  function Ids(ps: seq<Player>): (r: seq<PlayerId>)
    ensures |r| == |ps|
    ensures forall i :: 0 <= i < |ps| ==> r[i] == ps[i].id
  {
    seq(|ps|, i requires 0 <= i < |ps| => ps[i].id)
  }

  /** `o` went out through `broadcastToRoom` for room `roomId`: it is a
      broadcast whose recipients are exactly that room's roster ids that have
      a socket entry, each addressed once per roster entry carrying it. */
  ghost predicate ReachesRoom(reg: Registry, roomId: RoomId, o: Outbound) {
    && roomId in reg.rooms
    && o.Broadcast?
    && (forall id :: id in o.recipients <==> id in reg.sockets && id in Ids(reg.rooms[roomId].players))
    && forall id :: multiset(o.recipients)[id] ==
                      if id in reg.sockets then multiset(Ids(reg.rooms[roomId].players))[id] else 0
  }

  /** `broadcastToRoom(roomId, message)`: nothing when the room is absent,
      otherwise one message addressed once to every roster entry that has a
      socket entry. */
  function BroadcastTo(reg: Registry, roomId: RoomId, kind: MessageKind): (out: seq<Outbound>)
    ensures roomId !in reg.rooms ==> out == []
    ensures roomId in reg.rooms ==>
              && |out| == 1 && out[0].kind == kind && ReachesRoom(reg, roomId, out[0])
  {
    if roomId !in reg.rooms then []
    else [Broadcast(kind, Filter(Ids(reg.rooms[roomId].players), (id: PlayerId) => id in reg.sockets))]
  }

  /** The room a join lands in: the existing one, or a new one. */
  function RoomOrNew(reg: Registry, roomId: RoomId): Room {
    if roomId in reg.rooms then reg.rooms[roomId] else NewRoom(roomId)
  }

  /* ---------------- join_room ---------------- */

  /** The `join_room` case with `freshId` as the generated player id.
      The session takes the new id and room id before anything else (so
      even a rejected join rebinds it). The room is created only if absent.
      A room with two or more entries is left as it was and only an error is
      sent to the requester; otherwise exactly one entry is appended (losses
      0, X if the roster was empty, O otherwise), the id gets a socket entry,
      and the requester gets `player_joined` before the whole room, requester
      included, gets `game_state_update`. No other room changes. */
  function JoinRoom(reg: Registry, sess: Session, freshId: PlayerId,
                    roomId: RoomId, username: string, isOwner: bool): (st: Step)
    ensures st.session == Session(Some(freshId), Some(roomId))
    ensures st.registry.rooms.Keys == reg.rooms.Keys + {roomId}
    ensures forall k :: k in reg.rooms && k != roomId ==> st.registry.rooms[k] == reg.rooms[k]
    ensures roomId !in reg.rooms ==> FreshRound(st.registry.rooms[roomId])
    ensures |RoomOrNew(reg, roomId).players| >= 2 ==>
              st.registry == reg && st.out == [Reply(Error)]
    ensures |RoomOrNew(reg, roomId).players| < 2 ==>
              var before := RoomOrNew(reg, roomId);
              var after := st.registry.rooms[roomId];
              && SameGame(after, before)
              && |after.players| == |before.players| + 1
              && after.players[..|before.players|] == before.players
              && after.players[|before.players|] ==
                   Player(freshId, username, if |before.players| == 0 then X else O, 0, isOwner)
              && st.registry.sockets == reg.sockets + {freshId}
              && |st.out| == 2
              && st.out[0] == Reply(PlayerJoined)
              && st.out[1].Broadcast? && st.out[1].kind == GameStateUpdate
              && freshId in st.out[1].recipients
              && (forall id :: id in st.out[1].recipients <==>
                    id in st.registry.sockets && id in Ids(after.players))
              && ReachesRoom(st.registry, roomId, st.out[1])
  {
    var session := Session(Some(freshId), Some(roomId));
    var room := RoomOrNew(reg, roomId);
    var created := reg.(rooms := reg.rooms[roomId := room]);
    if |room.players| >= 2 then
      Step(created, session, [Reply(Error)])
    else
      var (reg', out) := Admit(reg, roomId, room, freshId, username, isOwner);
      Step(reg', session, out)
  }

  /** The admitting half of the `join_room` case: `addPlayer`, the socket entry,
      `player_joined` to the requester and `game_state_update` to every
      roster entry with a socket entry, the new player included. */
  function Admit(reg: Registry, roomId: RoomId, room: Room, freshId: PlayerId,
                 username: string, isOwner: bool): (res: (Registry, seq<Outbound>))
    ensures res.0.rooms == reg.rooms[roomId := AddPlayer(room, freshId, username, isOwner)]
    ensures res.0.sockets == reg.sockets + {freshId}
    ensures |res.1| == 2 && res.1[0] == Reply(PlayerJoined)
    ensures res.1[1].Broadcast? && res.1[1].kind == GameStateUpdate
    ensures freshId in res.1[1].recipients
    ensures forall id :: id in res.1[1].recipients <==>
              id in res.0.sockets && id in Ids(res.0.rooms[roomId].players)
    ensures ReachesRoom(res.0, roomId, res.1[1])
  {
    var joined := AddPlayer(room, freshId, username, isOwner);
    var reg' := Registry(reg.rooms[roomId := joined], reg.sockets + {freshId});
    assert freshId in Ids(joined.players) by {
      assert Ids(joined.players)[|room.players|] == freshId;
    }
    (reg', [Reply(PlayerJoined)] + BroadcastTo(reg', roomId, GameStateUpdate))
  }

  /* ---------------- make_move ---------------- */

  /** The `make_move` case. Nothing happens when the session has no (truthy)
      room id or player id or the room is gone. Otherwise the room's
      `makeMove` runs with the session's own player id: a rejected move sends
      nothing and changes nothing; a match-ending move broadcasts only
      `match_over`; any other accepted move broadcasts `move_made`, followed
      by `game_over` exactly when the round ended. */
  function MoveStep(reg: Registry, sess: Session, pos: Position): (st: Step)
    ensures st.session == sess && st.registry.sockets == reg.sockets
    ensures st.registry.rooms.Keys == reg.rooms.Keys
    ensures forall k :: k in reg.rooms && Some(k) != sess.currentRoomId ==>
              st.registry.rooms[k] == reg.rooms[k]
    ensures !Truthy(sess.currentRoomId) || !Truthy(sess.playerId) || sess.currentRoomId.value !in reg.rooms ==>
              st.registry == reg && st.out == []
    ensures Truthy(sess.currentRoomId) && Truthy(sess.playerId) && sess.currentRoomId.value in reg.rooms ==>
              var roomId := sess.currentRoomId.value;
              var room := reg.rooms[roomId];
              var (result, r) := MakeMove(room, sess.playerId.value, pos);
              && st.registry.rooms[roomId] == r
              && (st.out == [] <==> MoveRejected(room, sess.playerId.value, pos))
              && (result.MatchEnded? ==> |st.out| == 1 && st.out[0].kind == MatchOver)
              && (result.Accepted? ==>
                    && 1 <= |st.out| <= 2 && st.out[0].kind == MoveMade
                    && (|st.out| == 2 <==> r.gameOver)
                    && (|st.out| == 2 ==> st.out[1].kind == GameOver))
              && (forall i :: 0 <= i < |st.out| ==> ReachesRoom(st.registry, roomId, st.out[i]))
  {
    if !Truthy(sess.currentRoomId) || !Truthy(sess.playerId) then Step(reg, sess, [])
    else
      var roomId := sess.currentRoomId.value;
      if roomId !in reg.rooms then Step(reg, sess, [])
      else
        var (result, r) := MakeMove(reg.rooms[roomId], sess.playerId.value, pos);
        var reg' := reg.(rooms := reg.rooms[roomId := r]);
        Step(reg', sess, MoveMessages(reg', roomId, result))
  }

  /** What the `make_move` case sends after `makeMove` returned `result` and
      the room's round is over or not: nothing for a rejected move, only
      `match_over` when the match ended, otherwise `move_made` followed by
      `game_over` exactly when the round is over. */
  function MoveMessages(reg: Registry, roomId: RoomId, result: MoveResult): (out: seq<Outbound>)
    requires roomId in reg.rooms
    ensures out == [] <==> result.Rejected?
    ensures result.MatchEnded? ==> |out| == 1 && out[0].kind == MatchOver
    ensures result.Accepted? ==>
              && 1 <= |out| <= 2 && out[0].kind == MoveMade
              && (|out| == 2 <==> reg.rooms[roomId].gameOver)
              && (|out| == 2 ==> out[1].kind == GameOver)
    ensures forall i :: 0 <= i < |out| ==> ReachesRoom(reg, roomId, out[i])
  {
    match result
    case Rejected => []
    case MatchEnded(_) => BroadcastTo(reg, roomId, MatchOver)
    case Accepted =>
      BroadcastTo(reg, roomId, MoveMade)
      + (if reg.rooms[roomId].gameOver then BroadcastTo(reg, roomId, GameOver) else [])
  }

  /* ---------------- reset_game / reset_match ---------------- */

  /** The `reset_game` case. Only a truthy room id is needed (the player id
      is not consulted). The room gets `reset()`: a fresh round, the roster
      and every loss count kept, so whether the match is over is unchanged;
      `game_reset` is broadcast. */
  function ResetGameStep(reg: Registry, sess: Session): (st: Step)
    ensures st.session == sess && st.registry.sockets == reg.sockets
    ensures st.registry.rooms.Keys == reg.rooms.Keys
    ensures forall k :: k in reg.rooms && Some(k) != sess.currentRoomId ==>
              st.registry.rooms[k] == reg.rooms[k]
    ensures !Truthy(sess.currentRoomId) || sess.currentRoomId.value !in reg.rooms ==>
              st.registry == reg && st.out == []
    ensures Truthy(sess.currentRoomId) && sess.currentRoomId.value in reg.rooms ==>
              var roomId := sess.currentRoomId.value;
              var before := reg.rooms[roomId];
              var after := st.registry.rooms[roomId];
              && FreshRound(after) && after.roomId == before.roomId
              && after.players == before.players
              && GetGameState(after).matchOver == GetGameState(before).matchOver
              && |st.out| == 1 && st.out[0].kind == GameReset
              && ReachesRoom(st.registry, roomId, st.out[0])
  {
    if !Truthy(sess.currentRoomId) then Step(reg, sess, [])
    else
      var roomId := sess.currentRoomId.value;
      if roomId !in reg.rooms then Step(reg, sess, [])
      else
        var reg' := reg.(rooms := reg.rooms[roomId := Reset(reg.rooms[roomId])]);
        Step(reg', sess, BroadcastTo(reg', roomId, GameReset))
  }

  /** The `reset_match` case: like `reset_game`, but every loss count is also
      set to 0, so the match is no longer over; `match_reset` is broadcast. */
  function ResetMatchStep(reg: Registry, sess: Session): (st: Step)
    ensures st.session == sess && st.registry.sockets == reg.sockets
    ensures st.registry.rooms.Keys == reg.rooms.Keys
    ensures forall k :: k in reg.rooms && Some(k) != sess.currentRoomId ==>
              st.registry.rooms[k] == reg.rooms[k]
    ensures !Truthy(sess.currentRoomId) || sess.currentRoomId.value !in reg.rooms ==>
              st.registry == reg && st.out == []
    ensures Truthy(sess.currentRoomId) && sess.currentRoomId.value in reg.rooms ==>
              var roomId := sess.currentRoomId.value;
              var before := reg.rooms[roomId];
              var after := st.registry.rooms[roomId];
              && FreshRound(after) && after.roomId == before.roomId
              && |after.players| == |before.players|
              && (forall i :: 0 <= i < |before.players| ==>
                    after.players[i] == before.players[i].(losses := 0))
              && !GetGameState(after).matchOver
              && |st.out| == 1 && st.out[0].kind == MatchReset
              && ReachesRoom(st.registry, roomId, st.out[0])
  {
    if !Truthy(sess.currentRoomId) then Step(reg, sess, [])
    else
      var roomId := sess.currentRoomId.value;
      if roomId !in reg.rooms then Step(reg, sess, [])
      else
        var reg' := reg.(rooms := reg.rooms[roomId := ResetMatch(reg.rooms[roomId])]);
        Step(reg', sess, BroadcastTo(reg', roomId, MatchReset))
  }

  /* ---------------- close ---------------- */

  /** The `close` handler. With a truthy player id: its socket entry goes;
      with a truthy room id whose room exists, exactly the roster entries
      carrying that id are removed (the rest kept in order, the game
      untouched); the room is deleted exactly when its roster becomes empty,
      and otherwise `game_state_update` is broadcast. No other room changes. */
  function Close(reg: Registry, sess: Session): (st: Step)
    ensures st.session == sess
    ensures forall k :: k in reg.rooms && Some(k) != sess.currentRoomId ==>
              k in st.registry.rooms && st.registry.rooms[k] == reg.rooms[k]
    ensures st.registry.rooms.Keys <= reg.rooms.Keys
    ensures !Truthy(sess.playerId) ==> st.registry == reg && st.out == []
    ensures Truthy(sess.playerId) ==> st.registry.sockets == reg.sockets - {sess.playerId.value}
    ensures Truthy(sess.playerId) && (!Truthy(sess.currentRoomId) || sess.currentRoomId.value !in reg.rooms) ==>
              st.registry.rooms == reg.rooms && st.out == []
    ensures Truthy(sess.playerId) && Truthy(sess.currentRoomId) && sess.currentRoomId.value in reg.rooms ==>
              var roomId := sess.currentRoomId.value;
              var id := sess.playerId.value;
              var before := reg.rooms[roomId];
              && (roomId !in st.registry.rooms <==>
                    forall i :: 0 <= i < |before.players| ==> before.players[i].id == id)
              && (roomId !in st.registry.rooms ==> st.out == [])
              && (roomId in st.registry.rooms ==>
                    var after := st.registry.rooms[roomId];
                    && SameGame(after, before)
                    && 0 < |after.players| <= |before.players|
                    && (forall p :: p in after.players <==> p in before.players && p.id != id)
                    && IsSubsequence(after.players, before.players)
                    && (forall p :: multiset(after.players)[p] ==
                                     if p.id != id then multiset(before.players)[p] else 0)
                    && |st.out| == 1 && st.out[0].kind == GameStateUpdate
                    && ReachesRoom(st.registry, roomId, st.out[0])
                    && id !in st.out[0].recipients)
  {
    if !Truthy(sess.playerId) then Step(reg, sess, [])
    else
      var id := sess.playerId.value;
      var reg1 := reg.(sockets := reg.sockets - {id});
      if !Truthy(sess.currentRoomId) || sess.currentRoomId.value !in reg.rooms then Step(reg1, sess, [])
      else
        var (reg2, out) := Leave(reg1, sess.currentRoomId.value, id);
        Step(reg2, sess, out)
  }

  /** The room half of the `close` handler: the entries carrying `id` leave
      room `roomId`, which is deleted when nobody is left and otherwise told
      the new state; sockets and other rooms are untouched. */
  function Leave(reg: Registry, roomId: RoomId, id: PlayerId): (res: (Registry, seq<Outbound>))
    requires roomId in reg.rooms
    ensures res.0.sockets == reg.sockets
    ensures res.0.rooms.Keys <= reg.rooms.Keys
    ensures forall k :: k in reg.rooms && k != roomId ==>
              k in res.0.rooms && res.0.rooms[k] == reg.rooms[k]
    ensures var before := reg.rooms[roomId];
            && (roomId !in res.0.rooms <==>
                  forall i :: 0 <= i < |before.players| ==> before.players[i].id == id)
            && (roomId !in res.0.rooms ==> res.1 == [])
            && (roomId in res.0.rooms ==>
                  var after := res.0.rooms[roomId];
                  && SameGame(after, before)
                  && 0 < |after.players| <= |before.players|
                  && (forall p :: p in after.players <==> p in before.players && p.id != id)
                  && IsSubsequence(after.players, before.players)
                  && (forall p :: multiset(after.players)[p] ==
                                   if p.id != id then multiset(before.players)[p] else 0)
                  && |res.1| == 1 && res.1[0].kind == GameStateUpdate
                  && ReachesRoom(res.0, roomId, res.1[0]))
  {
    var room := reg.rooms[roomId];
    var remaining := Filter(room.players, (p: Player) => p.id != id);
    if |remaining| == 0 then
      (reg.(rooms := reg.rooms - {roomId}), [])
    else
      var reg' := reg.(rooms := reg.rooms[roomId := room.(players := remaining)]);
      var out := BroadcastTo(reg', roomId, GameStateUpdate);
      assert ReachesRoom(reg', roomId, out[0]);
      (reg', out)
  }

  /* ---------------- dispatch ---------------- */

  /** The `message` handler's `switch (data.type)`; `freshId` is the id that
      `generatePlayerId()` would return for a join. */
  function Dispatch(reg: Registry, sess: Session, req: Request, freshId: PlayerId): (st: Step)
    ensures req.JoinRoomRequest? ==>
              st == JoinRoom(reg, sess, freshId, req.roomId, req.username, req.isOwner)
    ensures req.MakeMoveRequest? ==> st == MoveStep(reg, sess, req.position)
    ensures req.ResetGameRequest? ==> st == ResetGameStep(reg, sess)
    ensures req.ResetMatchRequest? ==> st == ResetMatchStep(reg, sess)
    ensures req.UnknownRequest? ==> st == Step(reg, sess, [])
    ensures !req.JoinRoomRequest? ==> st.session == sess
    ensures req.JoinRoomRequest? ==> st.session == Session(Some(freshId), Some(req.roomId))
    ensures forall k :: k in reg.rooms && Some(k) != st.session.currentRoomId ==>
              k in st.registry.rooms && st.registry.rooms[k] == reg.rooms[k]
  {
    match req
    case JoinRoomRequest(roomId, username, isOwner) => JoinRoom(reg, sess, freshId, roomId, username, isOwner)
    case MakeMoveRequest(pos) => MoveStep(reg, sess, pos)
    case ResetGameRequest => ResetGameStep(reg, sess)
    case ResetMatchRequest => ResetMatchStep(reg, sess)
    case UnknownRequest => Step(reg, sess, [])
  }

  /* ---------------- registry invariant ---------------- */

  /** Every registered room is keyed by its own id, holds one or two roster
      entries (a room is deleted the moment its roster empties, and a third
      join is refused), and satisfies the round invariant. */
  ghost predicate Valid(reg: Registry) {
    forall k :: k in reg.rooms ==> RoomValid(k, reg.rooms[k])
  }

  /** What `Valid` asks of the room stored under key `k`. */
  ghost predicate RoomValid(k: RoomId, room: Room) {
    && room.roomId == k
    && 1 <= |room.players| <= 2
    && RoundInvariant(room)
  }

  /** Storing a valid room under its key keeps the registry valid. */
  lemma StoreValid(reg: Registry, k: RoomId, room: Room)
    requires Valid(reg) && RoomValid(k, room)
    ensures Valid(reg.(rooms := reg.rooms[k := room]))
  {
  }

  /** A join keeps the registry valid: a created room starts a fresh round,
      and a join is refused rather than making a third entry. */
  lemma JoinPreservesValid(reg: Registry, sess: Session, freshId: PlayerId,
                           roomId: RoomId, username: string, isOwner: bool)
    requires Valid(reg)
    ensures Valid(JoinRoom(reg, sess, freshId, roomId, username, isOwner).registry)
  {
    var room := RoomOrNew(reg, roomId);
    ResetsEstablish(roomId, room);
    if |room.players| < 2 {
      var joined := AddPlayer(room, freshId, username, isOwner);
      AddPlayerPreserves(room, freshId, username, isOwner);
      assert RoomValid(roomId, joined);
      StoreValid(reg, roomId, joined);
      assert JoinRoom(reg, sess, freshId, roomId, username, isOwner).registry.rooms
             == reg.rooms[roomId := joined];
    }
  }

  /** A move keeps the registry valid. */
  lemma MovePreservesValid(reg: Registry, sess: Session, pos: Position)
    requires Valid(reg)
    ensures Valid(MoveStep(reg, sess, pos).registry)
  {
    if Truthy(sess.currentRoomId) && Truthy(sess.playerId) && sess.currentRoomId.value in reg.rooms {
      var roomId := sess.currentRoomId.value;
      var room := reg.rooms[roomId];
      MakeMovePreserves(room, sess.playerId.value, pos);
      var r := MakeMove(room, sess.playerId.value, pos).1;
      assert |r.players| == |room.players| && r.roomId == room.roomId;
      assert RoomValid(roomId, r);
      StoreValid(reg, roomId, r);
    }
  }

  /** Both resets keep the registry valid. */
  lemma ResetsPreserveValid(reg: Registry, sess: Session)
    requires Valid(reg)
    ensures Valid(ResetGameStep(reg, sess).registry)
    ensures Valid(ResetMatchStep(reg, sess).registry)
  {
    if Truthy(sess.currentRoomId) && sess.currentRoomId.value in reg.rooms {
      var roomId := sess.currentRoomId.value;
      var room := reg.rooms[roomId];
      ResetsEstablish(roomId, room);
      StoreValid(reg, roomId, Reset(room));
      StoreValid(reg, roomId, ResetMatch(room));
    }
  }

  /** Every handled message keeps the registry valid. */
  lemma DispatchPreservesValid(reg: Registry, sess: Session, req: Request, freshId: PlayerId)
    requires Valid(reg)
    ensures Valid(Dispatch(reg, sess, req, freshId).registry)
  {
    match req
    case JoinRoomRequest(roomId, username, isOwner) =>
      JoinPreservesValid(reg, sess, freshId, roomId, username, isOwner);
    case MakeMoveRequest(pos) =>
      MovePreservesValid(reg, sess, pos);
    case ResetGameRequest =>
      ResetsPreserveValid(reg, sess);
    case ResetMatchRequest =>
      ResetsPreserveValid(reg, sess);
    case UnknownRequest =>
  }

  /** Closing a connection keeps the registry valid: in particular no empty
      room survives it. */
  lemma ClosePreservesValid(reg: Registry, sess: Session)
    requires Valid(reg)
    ensures Valid(Close(reg, sess).registry)
  {
    if Truthy(sess.playerId) && Truthy(sess.currentRoomId) && sess.currentRoomId.value in reg.rooms {
      var reg1 := reg.(sockets := reg.sockets - {sess.playerId.value});
      LeavePreservesValid(reg1, sess.currentRoomId.value, sess.playerId.value);
    }
  }

  /** Leaving a room keeps the registry valid: a kept room has the same
      round and one or two entries still. */
  lemma LeavePreservesValid(reg: Registry, roomId: RoomId, id: PlayerId)
    requires Valid(reg) && roomId in reg.rooms
    ensures Valid(Leave(reg, roomId, id).0)
  {
    var res := Leave(reg, roomId, id);
    if roomId in res.0.rooms {
      var before := reg.rooms[roomId];
      var after := res.0.rooms[roomId];
      assert SameGame(after, before);
      assert RoundInvariant(after);
      assert RoomValid(roomId, after);
    }
  }
}

=== FILE: wrappers.dfy ===
/** Optional values: the model's stand-in for JavaScript's `null`/`undefined`. */
module Wrappers {

  datatype Option<+T> = None | Some(value: T)

}
